=== FILE: README.md ===
# Token lifecycle of the authentication backend, in Dafny

This project models the core of a small Express/mongoose authentication
backend: the JWT verify callback that decides whether a bearer token is
accepted, the `auth` middleware that turns that decision into a 500, a 401
or a decorated request, the handlers that change a user's per-device token
list (logout, logout-all, refresh, Google sign-in), the Google verify
callback that finds, links or creates an account, and the rules of the user
record (validators, setters, defaults, the password hook, `comparePassword`,
the `toJSON` projection).

Everything is pure: the users collection is an immutable `Store` (documents
by `_id`, plus the unique email index as a map), a token is an opaque
string, and the collaborators the code calls (`validator.isEmail`,
`bcrypt.hash`, `bcrypt.compare`, `jwt.sign`, the clock, the database's own
failures) are parameters.

Modules, one per source concern:

- `Basics` — `Option`, `Result`, JavaScript truthiness of strings.
- `Text` — the `trim` and `lowercase` setters.
- `TokenList` — the token list: `Count`, `Remove` (the `filter`), subsequences.
- `UserModel` — models/user.js and the collection: validation, setters and defaults, save/create, the password hook, `comparePassword`, `toJSON`.
- `JwtStrategy` — the `jwt` verify callback of passport.js.
- `GoogleStrategy` — the `google` verify callback of passport.js.
- `AuthMiddleware` — middlewares/auth.js, plus passport's translation of `done`.
- `UserController` — controllers/userController.js.
- `Lifecycle` — the protected routes of routers/user.js behind the guard, and the properties that span guard and handlers.

Behaviour of the code worth noting:

- Linking a Google account to an existing user overwrites `displayName` and `avatar` with the Google values whenever those are non-empty. It does not keep values that are already set.
- A token whose signature does not verify is refused with the library's own message. "JWT 驗證失敗" is shown only when that message is missing or empty.
- A refresh changes the list length by `1 - Count(old)`. The length stays the same only when the old token occurred exactly once.
- The password is required whenever `googleId` is falsy, and an empty-string `googleId` counts as falsy too.
- A payload without `exp` is never expired, because `NaN < now` is false.
- A database error whose message is literally `USER NOT FOUND` is treated as a failed login (401), not as a server error.

## Model

| member | source | states |
|---|---|---|
| Text.Trim | models/user.js:14 | the trimmed string is `s` minus a leading and a trailing run of ECMA-262 whitespace, and does not start or end with whitespace |
| Text.Lower | models/user.js:13 | same length, no upper-case ASCII letter left, each position equal to the input up to case |
| Text.NormaliseIdempotent | models/user.js:12-14 | normalising a stored email again leaves it unchanged |
| Text.TrimEmptyIffBlank | models/user.js:38 | a string trims to the empty string iff it consists of whitespace only |
| Text.TrimIdempotent | models/user.js:38 | trimming a trimmed display name changes nothing |
| TokenList.Remove | controllers/userController.js:68 | the filtered list lacks the token, keeps every other token's count, is a subsequence of the original, and is shorter by the token's count |
| TokenList.RemoveCharacterised | controllers/userController.js:68 | any list that lacks the token, keeps the other counts and keeps the order is the filtered list |
| TokenList.RemoveIdempotent | controllers/userController.js:68 | filtering the same token out twice equals filtering it once |
| TokenList.RemoveAbsent | controllers/userController.js:68 | filtering out an absent token leaves the list unchanged |
| TokenList.RemoveSubset | controllers/userController.js:68 | a token survives the filter iff it was present and is not the removed one |
| TokenList.CountPositiveIffIn | controllers/userController.js:68 | a token occurs a positive number of times iff it is in the list |
| TokenList.CountConcat | controllers/userController.js:129 | occurrence counts add up over concatenation |
| TokenList.SubsequenceCountBound | controllers/userController.js:68 | a subsequence never has more copies of a token than its source |
| UserModel.FieldErrors | models/user.js:9-39 | only `email`, `password` and `displayName` can fail; a record passes iff its email is non-empty and an email, its display name is non-empty, a password is present when `googleId` is falsy, and a present password has at least 6 characters |
| UserModel.PasswordRule | models/user.js:21-28 | a record without a password is valid iff it has a truthy `googleId`; one with a password is valid iff the password has at least 6 characters |
| UserModel.DisplayNameRule | models/user.js:35-39 | after the trim setter, the required display name validator passes iff the given name has a character other than whitespace |
| UserModel.EmailsUnique | models/user.js:12 | two stored records with the same email are the same record |
| UserModel.FindByEmail | passport.js:68 | on an indexed store, a user is found iff some stored record has the normalised email, and it is that record |
| UserModel.FindByEmailFinds | passport.js:68 | the lookup returns the stored record whose email is the normalised query value |
| UserModel.FindByIdAndToken | passport.js:28-30 | a user is found iff the id is stored and its token list contains the token, and it is that stored record |
| UserModel.NewDocument | models/user.js:9-49 | a new document's email is the given email lower-cased and trimmed, its display name the given name trimmed; the given password and `googleId` are kept; there are no tokens, and the avatar defaults to the empty string |
| UserModel.HashPassword | models/user.js:69-80 | the password is replaced by its hash iff it was modified and is non-empty; a hashing failure is an error; nothing else in the record changes |
| UserModel.Save | models/user.js:6-80 | a save that succeeds passed validation, targets a stored document, replaces only that document with the pre-save hook's output (the hash when the password was modified), and keeps the email index consistent; a failing validator reports the failing paths |
| UserModel.SaveUntouchedSucceeds | models/user.js:6-80 | saving a valid stored record whose email and password are unchanged succeeds, writes it back as it is and keeps the store sound |
| UserModel.Insert | models/user.js:6-80 | a create succeeds iff the record passes validation, the pre-save hook succeeds, the id is new and the email unused; it then adds exactly that record, with its password hashed by the pre-save hook, to the collection and the index |
| UserModel.InsertPreservesWellFormed | models/user.js:6-80 | creating a record keeps every stored record valid and the email index consistent |
| UserModel.Create | models/user.js:9-49 | a created user has the new id, no tokens, the given email lower-cased and trimmed, the given name trimmed, the given `googleId`, the given avatar or the empty string, and is the only record added |
| UserModel.ComparePassword | models/user.js:83-88 | false whenever the stored password is absent or empty; otherwise the bcrypt comparison's answer |
| UserModel.ComparePasswordAfterSave | models/user.js:69-88 | after a save that hashed a new password, comparing that same plaintext against the stored hash succeeds |
| UserModel.NoPasswordNeverCompares | models/user.js:83-88 | an account created without a password matches no candidate |
| UserModel.Transform | models/user.js:57-63 | `password`, `tokens` and `__v` are absent from the JSON view and every other key passes through unchanged |
| UserModel.ViewKeys | models/user.js:55-63 | besides the timestamps, which are not modelled, the serialised user has exactly `_id`, `id`, `email`, `googleId`, `displayName`, `avatar` |
| UserModel.ViewIgnoresSecrets | models/user.js:57-63 | two records that differ only in password, tokens or version serialise identically |
| JwtStrategy.Classify | passport.js:33-43 | the two errors the callback throws become failures with their messages; any other error is passed on as an error |
| JwtStrategy.Verify | passport.js:16-44 | success iff (not expired or exempt path), no database error, the subject is stored and lists the raw token; success carries that record and the same token; an expired token off the exempt paths fails with "token 已過期" |
| JwtStrategy.Expired | passport.js:21 | a payload without `exp` is never expired |
| JwtStrategy.ExpiryMonotone | passport.js:21 | once a token is expired it stays expired at every later instant |
| JwtStrategy.ExemptionIsExact | passport.js:23-24 | the exemption compares the whole path, so no extension of `/user/refresh` or `/user/logout` is exempt |
| JwtStrategy.ExpiryBoundary | passport.js:21 | a token is not expired at its exact expiry instant and is expired one millisecond later |
| JwtStrategy.ExpiredRejectedWithoutLookup | passport.js:23-26 | an expired token off the exempt paths is refused with the expiry message whatever the store holds and whatever the database would do |
| JwtStrategy.ExemptIgnoresExpiry | passport.js:24-28 | on `/user/refresh` and `/user/logout` the verdict does not depend on the clock |
| JwtStrategy.LookupFailure | passport.js:28-37 | when the lookup runs and the subject is missing or does not list the token, the failure is "使用者不存在或 token 已失效" |
| JwtStrategy.FaultIsError | passport.js:40-41 | a database error reached during the lookup is passed on as an error, not a failure |
| GoogleStrategy.ProfileAvatar | passport.js:65 | the avatar is the first photo, or the empty string when the profile has none |
| GoogleStrategy.Link | passport.js:73-76 | linking sets `googleId`; display name and avatar take the Google value when it is non-empty and keep the old one otherwise; nothing else changes |
| GoogleStrategy.VerifyGoogle | passport.js:57-98 | a profile without emails is an error; a resolved user carries the normalised first email and is the record stored under its id |
| GoogleStrategy.AlreadyLinked | passport.js:70-73 | a user with a Google id is returned unchanged and nothing is written |
| GoogleStrategy.LinkKeepsRecordValid | passport.js:73-77 | a linked record still passes the schema's validators |
| GoogleStrategy.LinksExisting | passport.js:70-79 | a user without a Google id is linked; only that record changes and the email index is unchanged |
| GoogleStrategy.CreatesNew | passport.js:80-89 | with no user for the email and a profile whose normalised email is a valid address, whose trimmed name is non-empty and whose id is non-empty, the callback succeeds and exactly one record is added, with the Google id, name and avatar, no password and no tokens |
| GoogleStrategy.CreateNeverDuplicatesEmail | passport.js:68-88 | the create branch never fails on the email index |
| AuthMiddleware.Auth | middlewares/auth.js:9-35 | an error gives 500 "伺服器錯誤"; any failure gives 401 with `info.message` when present, otherwise "JWT 驗證失敗"; success continues with the same user and token |
| AuthMiddleware.FromVerdict | passport.js:32-41 | the callback's success, failure and error reach the middleware as data, info and error respectively |
| AuthMiddleware.RunStrategy | middlewares/auth.js:8-9 | a request without a usable token reaches the callback as a failure carrying the library's message; otherwise the callback is authenticated iff the verify callback succeeds, and an error arises only from a database fault on a decoded token |
| AuthMiddleware.Authenticate | middlewares/auth.js:8-36 | a request continues iff it bore a verified token that is live or on an exempt path and listed for its stored subject; it then carries that record and that token; otherwise the status is 500 exactly for a database error other than the two thrown messages during the lookup of a live or exempt token, and 401 for every other refusal |
| AuthMiddleware.ExpiredIs401 | middlewares/auth.js:20-28 | an expired token off the exempt paths gives 401 with "token 已過期" |
| AuthMiddleware.FaultIs500 | middlewares/auth.js:11-17 | a database error during the lookup gives 500, never 401 |
| UserController.LogoutTokens | controllers/userController.js:68 | every occurrence of the presented token is gone, all other tokens remain in their relative order |
| UserController.RefreshTokens | controllers/userController.js:128-129 | the new token is last, the rest is the filtered list, the old token is gone when it differs from the new one, and the length changes by 1 - count(old), so it is unchanged iff the old token occurred once |
| UserController.IssueTokens | controllers/userController.js:23 | exactly one token is appended at the end and the earlier tokens are untouched |
| UserController.Logout | controllers/userController.js:62-84 | 200 exactly when saving the filtered list succeeds, and it then writes the user back with the token filtered out; a failed save is 500 with the store unchanged |
| UserController.LogoutAll | controllers/userController.js:90-111 | 200 exactly when saving the empty list succeeds, and it then leaves the user's token list empty and changes nothing else; a failed save is 500 with the store unchanged |
| UserController.RefreshToken | controllers/userController.js:117-147 | 200 exactly when signing and saving the rotated list both succeed, and it then replies with the newly signed token and writes the rotated list; a signing or save failure is 500 with the store unchanged |
| UserController.GoogleAuthCallback | controllers/userController.js:8-34 | with no user, redirect with `auth_failed` and write nothing; the token redirect happens exactly when a token was signed and the list with it appended was saved; with a user, every other outcome is the `server_error` redirect; every error redirect leaves the store unchanged |
| UserController.GetProfile | controllers/userController.js:40-56 | 200 with the user's JSON view: every key of the record other than password, tokens and version, with the record's values, and nothing else |
| UserController.TokenSaveSucceeds | controllers/userController.js:68-69 | on a sound store, saving a user with only its token list changed succeeds, changes only that list and keeps the store sound |
| UserController.LogoutSucceeds | controllers/userController.js:62-84 | on a sound store logout answers 200 and the store stays sound |
| UserController.LogoutAllSucceeds | controllers/userController.js:90-111 | on a sound store logout-all answers 200 and the store stays sound |
| UserController.RefreshSucceeds | controllers/userController.js:117-147 | on a sound store a refresh with a signed token answers 200 and the store stays sound |
| UserController.GoogleCallbackSucceeds | controllers/userController.js:17-29 | on a sound store the Google callback with a user and a signed token redirects with that token |
| Lifecycle.RouteExemption | routers/user.js:40-61 | of the four protected routes exactly refresh and logout are expiry-exempt; `/user/logout/all` is not |
| Lifecycle.Handle | routers/user.js:40-61 | a request the guard refuses changes nothing and answers with the guard's status |
| Lifecycle.LogoutRevokes | controllers/userController.js:68 | after a successful logout the presented token is refused on every route at every later time |
| Lifecycle.LogoutAllRevokesEvery | controllers/userController.js:95 | after a successful logout-all every token of that user is refused |
| Lifecycle.RefreshRotates | controllers/userController.js:128-129 | after a refresh the old token is refused and the new one is admitted while live |
| Lifecycle.ExpiredTokenRefreshes | passport.js:24-28 | an expired but listed token can be refreshed: 200, old token out, new token in |
| Lifecycle.ExpiredElsewhereRejected | passport.js:23-26 | an expired token on profile or logout-all gets 401 "token 已過期" and nothing changes |
| Lifecycle.IssuedTokenAdmitted | controllers/userController.js:18-24 | a token issued by the Google callback is admitted while live |
| Lifecycle.SignInLogoutProfile | controllers/userController.js:62-69 | Google sign-in, then logout with that token, then a profile request with it gives 401 |

## Left out

- Signing and signature checking (jsonwebtoken, passport-jwt) are not modelled. A token is an opaque string. What the library produced is an input: no token, an unverifiable token with the library's message, or a verified token with its decoded `_id` and `exp`.
- bcrypt and `validator.isEmail` are parameters of type `Env`, plus a comparison function argument. The fact that bcrypt hashes are 60 characters long is stated as a hypothesis (`HashesAreLong`).
- MongoDB and mongoose persistence is replaced by an immutable `Store`. Mongoose writes only the modified paths, while the model writes the whole record; the two agree when no other writer runs at the same time.
- The read-modify-write race on the same user's `tokens` is not modelled. It is a concurrency hazard.
- `__v` increments are not modelled: `__v` is only a field that `toJSON` drops.
- UserModel.ViewKeys: the `createdAt`/`updatedAt` timestamps of `timestamps: true` are not modelled, because they need a clock; the real JSON view also holds those two keys.
- Text.Lower: lower-cases ASCII letters only. JavaScript's full Unicode case mapping is not modelled.
- UserModel.FieldErrors: `minlength` counts Unicode scalar values, whereas JavaScript counts UTF-16 code units.
- JwtStrategy.Expired: `exp * 1000` is exact integer arithmetic. In JavaScript it is floating point, which is exact for every realistic `exp`.
- The cast of `payload._id` to an ObjectId is not modelled. A malformed id would reach the middleware as a database error.
- Express routing (trailing-slash and case-insensitive matching), CORS, the JSON-error and 404 handlers, the Google OAuth redirect handshake, redirect URL building, logging and `process.env` are not modelled. Redirects are the two `Redirect` cases.
- The code has no password login or registration handler, so the model has none.
- The catch branch of `getProfile` is not modelled, because only a serialisation failure could reach it.
- An error that the Google callback passes to `done` ends in Express's error handler, and that handler is not modelled.

=== FILE: auth_middleware.dfy ===
/**
 * The `auth` middleware (middlewares/auth.js) and the passport-jwt plumbing
 * around the verify callback: how the strategy's answer becomes a 500, a 401
 * or a request that carries `user` and `token` on to the handler.
 */
module AuthMiddleware {
  import opened Basics
  import opened UserModel
  import opened JwtStrategy
  import TokenList

  /** The `info` argument of the authenticate callback: an object with an optional message. */
  datatype Info = Info(message: Option<string>)

  /** The three shapes of `(error, data, info)` passport calls back with. */
  datatype Callback =
    | Errored(error: string)
    | Unauthenticated(info: Option<Info>)
    | Authenticated(user: User, token: TokenList.Token)

  /** Either the JSON error response `{ success: false, message }`, or `next()` with the request decorated. */
  datatype Decision =
    | Respond(status: nat, message: string)
    | Continue(user: User, token: TokenList.Token)

  const StatusUnauthorized: nat := 401
  const MsgServerError: string := "伺服器錯誤"
  const MsgVerifyFailed: string := "JWT 驗證失敗"

  /** `info?.message`. */
  function InfoMessage(info: Option<Info>): Option<string> {
    if info.Some? then info.value.message else None
  }

  /** The middleware's callback. */
  function Auth(c: Callback): (d: Decision)
    ensures c.Errored? <==> d == Respond(StatusServerError, MsgServerError)
    ensures c.Unauthenticated? ==> d.Respond? && d.status == StatusUnauthorized
    ensures c.Unauthenticated? && Truthy(InfoMessage(c.info)) ==> d.message == InfoMessage(c.info).value
    ensures c.Unauthenticated? && !Truthy(InfoMessage(c.info)) ==> d.message == MsgVerifyFailed
    ensures d.Continue? <==> c.Authenticated?
    ensures c.Authenticated? ==> d.user == c.user && d.token == c.token
  {
    match c
    case Errored(_) => Respond(StatusServerError, MsgServerError)
    case Unauthenticated(info) =>
      // both arms of the source's conditional are 401
      var status := if InfoMessage(info) == Some(MsgExpired) then StatusUnauthorized else StatusUnauthorized;
      Respond(status, OrElse(InfoMessage(info).GetOr(""), MsgVerifyFailed))
    case Authenticated(user, token) => Continue(user, token)
  }

  /**
   * What passport-jwt produced from the request before calling back: no
   * bearer token, a token whose signature or format does not verify (with
   * the library's message), or a verified token and its decoded payload.
   */
  datatype Extraction =
    | NoToken(reason: string)
    | Unverifiable(reason: string)
    | Decoded(token: TokenList.Token, payload: Payload)

  /** passport's translation of the verify callback's `done` into `(error, data, info)`. */
  function FromVerdict(v: Verdict): (c: Callback)
    ensures v.Success? <==> c.Authenticated?
    ensures v.Success? ==> c == Authenticated(v.user, v.token)
    ensures v.Fail? ==> c == Unauthenticated(Some(Info(Some(v.message))))
    ensures v.Error? ==> c == Errored(v.cause)
  {
    match v
    case Success(u, t) => Authenticated(u, t)
    case Fail(m) => Unauthenticated(Some(Info(Some(m))))
    case Error(e) => Errored(e)
  }

  /** The `jwt` strategy as the middleware sees it. */
  function RunStrategy(s: Store, x: Extraction, now: int, baseUrl: string, path: string,
                       fault: Option<string>): (c: Callback)
    ensures !x.Decoded? ==> c == Unauthenticated(Some(Info(Some(x.reason))))
    ensures c.Authenticated? <==> x.Decoded? && Verify(s, x.token, x.payload, now, baseUrl, path, fault).Success?
    ensures c.Errored? ==> x.Decoded? && fault.Some?
  {
    match x
    case NoToken(reason) => Unauthenticated(Some(Info(Some(reason))))
    case Unverifiable(reason) => Unauthenticated(Some(Info(Some(reason))))
    case Decoded(token, payload) => FromVerdict(Verify(s, token, payload, now, baseUrl, path, fault))
  }

  /**
   * The whole guard in front of a protected route: a request continues
   * exactly when it carried a verified token that the callback accepted, and
   * it then carries the subject's stored record and the very token presented.
   */
  function Authenticate(s: Store, x: Extraction, now: int, baseUrl: string, path: string,
                        fault: Option<string>): (d: Decision)
    ensures d.Continue? <==>
      && x.Decoded?
      && (!Expired(x.payload, now) || ExpiryExempt(baseUrl + path))
      && fault.None?
      && x.payload.subject in s.users
      && x.token in s.users[x.payload.subject].tokens
    ensures d.Continue? ==> d.user == s.users[x.payload.subject] && d.token == x.token
    ensures d.Respond? ==> d.status in {StatusUnauthorized, StatusServerError}
    ensures (d.Respond? && d.status == StatusServerError) <==>
      && x.Decoded?
      && (!Expired(x.payload, now) || ExpiryExempt(baseUrl + path))
      && fault.Some? && fault.value != ThrownNotFound && fault.value != ThrownExpired
  {
    Auth(RunStrategy(s, x, now, baseUrl, path, fault))
  }

  /** An expired token off the exempt paths gets a 401 with the expiry message. */
  lemma ExpiredIs401(s: Store, token: TokenList.Token, payload: Payload, now: int,
                     baseUrl: string, path: string, fault: Option<string>)
    requires Expired(payload, now) && !ExpiryExempt(baseUrl + path)
    ensures Authenticate(s, Decoded(token, payload), now, baseUrl, path, fault)
         == Respond(StatusUnauthorized, MsgExpired)
  {
  }

  /** A database error during the lookup is a 500, never a 401. */
  lemma FaultIs500(s: Store, token: TokenList.Token, payload: Payload, now: int,
                   baseUrl: string, path: string, fault: string)
    requires !Expired(payload, now) || ExpiryExempt(baseUrl + path)
    requires fault != ThrownNotFound && fault != ThrownExpired
    ensures Authenticate(s, Decoded(token, payload), now, baseUrl, path, Some(fault))
         == Respond(StatusServerError, MsgServerError)
  {
    FaultIsError(s, token, payload, now, baseUrl, path, fault);
  }
}

=== FILE: basics.dfy ===
/** Small shared vocabulary: optional values and JavaScript truthiness of strings. */
module Basics {

  /** A value that may be missing. `None` stands for both `undefined` and `null`. */
  datatype Option<+T> = None | Some(value: T) {

    /** Returns the value in Some, or the given default. */
    function GetOr(default: T): T {
      match this
      case Some(v) => v
      case None => default
    }
  }

  /** The outcome of an operation that may throw. */
  datatype Result<+T, +E> = Ok(value: T) | Err(error: E)

  /** JavaScript truthiness of an optional string: missing, null and "" are falsy. */
  predicate Truthy(s: Option<string>) {
    s.Some? && s.value != ""
  }

  /** The HTTP status every handler and the guard send on an unexpected error. */
  const StatusServerError: nat := 500

  /** The value of `a || b` for two strings. */
  function OrElse(a: string, b: string): string {
    if a != "" then a else b
  }
}

=== FILE: google_strategy.dfy ===
/**
 * The verify callback of the `google` strategy (passport.js): find the user
 * by the profile's first email, link the Google id to an account that has
 * none, or create a password-less account.
 */
module GoogleStrategy {
  import opened Basics
  import opened UserModel
  import Text

  /**
   * The parts of the Google profile the callback reads. A missing display
   * name is "". `photos` holds the photo URLs in order.
   */
  datatype Profile = Profile(id: string, emails: seq<string>, displayName: string, photos: seq<string>)

  /** Why the callback hands an error to `done`. */
  datatype Failure =
    | ProfileWithoutEmail   // `profile.emails[0].value` throws a TypeError
    | WriteFailed(error: Error)

  /** What the callback hands to `done`: the resolved user, or an error. */
  datatype Resolution =
    | Resolved(store: Store, user: User)
    | Failed(failure: Failure)

  /** The avatar taken from the profile: the first photo, or '' when there are none. */
  function ProfileAvatar(p: Profile): (a: string)
    ensures p.photos == [] ==> a == ""
    ensures p.photos != [] ==> a == p.photos[0]
  {
    if |p.photos| > 0 then p.photos[0] else ""
  }

  /**
   * The record after linking: Google id set; display name and avatar take the
   * Google value when it is non-empty and otherwise keep the old one.
   */
  function Link(u: User, p: Profile): (v: User)
    ensures v.googleId == Some(p.id)
    ensures p.displayName != "" ==> v.displayName == Text.Trim(p.displayName)
    ensures p.displayName == "" ==> v.displayName == Text.Trim(u.displayName)
    ensures ProfileAvatar(p) != "" ==> v.avatar == ProfileAvatar(p)
    ensures ProfileAvatar(p) == "" ==> v.avatar == u.avatar
    ensures v.(googleId := u.googleId, displayName := u.displayName, avatar := u.avatar) == u
  {
    u.(googleId := Some(p.id),
       displayName := Text.Trim(OrElse(p.displayName, u.displayName)),
       avatar := OrElse(ProfileAvatar(p), u.avatar))
  }

  function FromWrite(r: Result<Saved, Error>): Resolution {
    match r
    case Ok(saved) => Resolved(saved.store, saved.user)
    case Err(e) => Failed(WriteFailed(e))
  }

  /** Links the Google account to `u` and saves the record. */
  function LinkAndSave(env: Env, s: Store, u: User, p: Profile): Resolution {
    FromWrite(Save(env, s, Link(u, p), false))
  }

  /** Creates the password-less account described by the profile. */
  function CreateFromProfile(env: Env, s: Store, p: Profile, freshId: UserId): Resolution
    requires p.emails != []
  {
    FromWrite(Create(env, s, freshId,
                     Fields(p.emails[0], None, Some(p.id), p.displayName, Some(ProfileAvatar(p)))))
  }

  /** The verify callback; `freshId` is the `_id` a new document would get. */
  function VerifyGoogle(env: Env, s: Store, p: Profile, freshId: UserId): (r: Resolution)
    ensures p.emails == [] ==> r == Failed(ProfileWithoutEmail)
    ensures Indexed(s) && r.Resolved? ==> p.emails != [] && r.user.email == Text.Normalise(p.emails[0])
    ensures Indexed(s) && r.Resolved? ==> r.user.id in r.store.users && r.store.users[r.user.id] == r.user
  {
    if |p.emails| == 0 then Failed(ProfileWithoutEmail)
    else
      var email := p.emails[0];
      match FindByEmail(s, email)
      case Some(u) =>
        if Truthy(u.googleId) then Resolved(s, u)
        else LinkAndSave(env, s, u, p)
      case None =>
        CreateFromProfile(env, s, p, freshId)
  }

  /** Which branch the callback takes once the email lookup has answered. */
  lemma Branches(env: Env, s: Store, p: Profile, freshId: UserId)
    requires p.emails != []
    ensures FindByEmail(s, p.emails[0]).Some? && Truthy(FindByEmail(s, p.emails[0]).value.googleId) ==>
      VerifyGoogle(env, s, p, freshId) == Resolved(s, FindByEmail(s, p.emails[0]).value)
    ensures FindByEmail(s, p.emails[0]).Some? && !Truthy(FindByEmail(s, p.emails[0]).value.googleId) ==>
      VerifyGoogle(env, s, p, freshId) == LinkAndSave(env, s, FindByEmail(s, p.emails[0]).value, p)
    ensures FindByEmail(s, p.emails[0]).None? ==>
      VerifyGoogle(env, s, p, freshId) == CreateFromProfile(env, s, p, freshId)
  {
  }

  /** An account already linked to Google is returned as it is and nothing is written. */
  lemma AlreadyLinked(env: Env, s: Store, p: Profile, freshId: UserId, u: User)
    requires Indexed(s)
    requires p.emails != [] && u.id in s.users && s.users[u.id] == u
    requires u.email == Text.Normalise(p.emails[0])
    requires Truthy(u.googleId)
    ensures VerifyGoogle(env, s, p, freshId) == Resolved(s, u)
  {
    FindByEmailFinds(s, u, p.emails[0]);
    Branches(env, s, p, freshId);
  }

  /** Linking keeps a valid, password-protected record valid. */
  lemma LinkKeepsRecordValid(env: Env, u: User, p: Profile)
    requires FieldErrors(env, u) == {} && Normalised(u)
    requires !Truthy(u.googleId)
    requires p.displayName != "" ==> Text.Trim(p.displayName) != ""
    ensures FieldErrors(env, Link(u, p)) == {} && Normalised(Link(u, p))
  {
    Text.TrimFixesTrimmed(u.displayName);
  }

  /**
   * An account with the email but no Google id gets linked: only that record
   * changes, and only in its Google id, display name and avatar.
   */
  lemma LinksExisting(env: Env, s: Store, p: Profile, freshId: UserId, u: User)
    requires WellFormed(env, s)
    requires p.emails != [] && u.id in s.users && s.users[u.id] == u
    requires u.email == Text.Normalise(p.emails[0])
    requires !Truthy(u.googleId)
    requires p.displayName != "" ==> Text.Trim(p.displayName) != ""
    ensures VerifyGoogle(env, s, p, freshId) == Resolved(
      Store(s.users[u.id := Link(u, p)], s.byEmail), Link(u, p))
  {
    FindByEmailFinds(s, u, p.emails[0]);
    Branches(env, s, p, freshId);
    LinkKeepsRecordValid(env, u, p);
    SaveUntouchedSucceeds(env, s, Link(u, p));
  }

  /**
   * With no account for the email, a profile whose email, name and id pass
   * the validators always gets exactly one new account, from the Google
   * email, id, name and avatar, without password and without tokens.
   */
  lemma CreatesNew(env: Env, s: Store, p: Profile, freshId: UserId)
    requires Indexed(s)
    requires p.emails != []
    requires forall id :: id in s.users ==> s.users[id].email != Text.Normalise(p.emails[0])
    requires freshId !in s.users
    requires Text.Normalise(p.emails[0]) != "" && env.isEmail(Text.Normalise(p.emails[0]))
    requires Text.Trim(p.displayName) != "" && p.id != ""
    ensures VerifyGoogle(env, s, p, freshId).Resolved?
    ensures var r := VerifyGoogle(env, s, p, freshId);
      && r.store.users == s.users[freshId := r.user]
      && |r.store.users| == |s.users| + 1
      && r.user.id == freshId
      && r.user.googleId == Some(p.id)
      && r.user.displayName == Text.Trim(p.displayName)
      && r.user.avatar == ProfileAvatar(p)
      && r.user.password.None?
      && r.user.tokens == []
  {
    assert FindByEmail(s, p.emails[0]).None?;
    assert Text.Normalise(p.emails[0]) !in s.byEmail;
  }

  /**
   * The create branch never collides on the email index: the lookup that
   * sent it there used the same normalised key.
   */
  lemma CreateNeverDuplicatesEmail(env: Env, s: Store, p: Profile, freshId: UserId)
    requires Indexed(s)
    requires p.emails != [] && FindByEmail(s, p.emails[0]).None?
    ensures VerifyGoogle(env, s, p, freshId) != Failed(WriteFailed(DuplicateKey("email")))
  {
    Branches(env, s, p, freshId);
    assert Text.Normalise(p.emails[0]) !in s.byEmail;
  }
}

=== FILE: jwt_strategy.dfy ===
/**
 * The verify callback of the `jwt` strategy (passport.js). The library has
 * already checked the signature with expiry checking turned off; the callback
 * decides expiry itself, exempts two exact paths, and then requires the raw
 * token to be one of the subject's active tokens.
 */
module JwtStrategy {
  import opened Basics
  import opened UserModel
  import TokenList

  /** The decoded claims the callback reads: `_id` and `exp` (seconds; may be missing). */
  datatype Payload = Payload(subject: UserId, exp: Option<int>)

  /**
   * What the callback hands to `done`: `{ user, token }`, a failure with an
   * info message, or an error.
   */
  datatype Verdict =
    | Success(user: User, token: TokenList.Token)
    | Fail(message: string)
    | Error(cause: string)

  /** The router is mounted at `/user`; these are the only exempt full paths. */
  const RefreshPath: string := "/user/refresh"
  const LogoutPath: string := "/user/logout"

  /** Messages of the errors the callback throws, and of the failures they become. */
  const ThrownExpired: string := "TOKEN EXPIRED"
  const ThrownNotFound: string := "USER NOT FOUND"
  const MsgExpired: string := "token 已過期"
  const MsgNotFound: string := "使用者不存在或 token 已失效"

  /**
   * `payload.exp * 1000 < Date.now()` with `now` in milliseconds. A payload
   * without `exp` gives NaN, and a comparison with NaN is false.
   */
  predicate Expired(p: Payload, now: int)
    ensures p.exp.None? ==> !Expired(p, now)
  {
    p.exp.Some? && p.exp.value * 1000 < now
  }

  /** `req.baseUrl + req.path` compared against the two exempt paths. */
  predicate ExpiryExempt(url: string) {
    url == RefreshPath || url == LogoutPath
  }

  /** The catch block: two known error messages become failures, anything else an error. */
  function Classify(thrown: string): (v: Verdict)
    ensures v.Success? == false
    ensures thrown == ThrownNotFound ==> v == Fail(MsgNotFound)
    ensures thrown == ThrownExpired ==> v == Fail(MsgExpired)
    ensures thrown != ThrownNotFound && thrown != ThrownExpired ==> v == Error(thrown)
  {
    if thrown == ThrownNotFound then Fail(MsgNotFound)
    else if thrown == ThrownExpired then Fail(MsgExpired)
    else Error(thrown)
  }

  /**
   * The verify callback. `token` is the raw bearer string, `payload` its
   * decoded claims, `now` the clock in milliseconds, `fault` an error the
   * database raises during the lookup, if any.
   */
  function Verify(s: Store, token: TokenList.Token, payload: Payload, now: int,
                  baseUrl: string, path: string, fault: Option<string>): (v: Verdict)
    ensures v.Success? <==>
      && (!Expired(payload, now) || ExpiryExempt(baseUrl + path))
      && fault.None?
      && payload.subject in s.users
      && token in s.users[payload.subject].tokens
    ensures v.Success? ==> v.user == s.users[payload.subject] && v.token == token
    ensures Expired(payload, now) && !ExpiryExempt(baseUrl + path) ==> v == Fail(MsgExpired)
  {
    if Expired(payload, now) && !ExpiryExempt(baseUrl + path) then
      Classify(ThrownExpired)
    else if fault.Some? then
      Classify(fault.value)
    else
      match FindByIdAndToken(s, payload.subject, token)
      case Some(u) => Success(u, token)
      case None => Classify(ThrownNotFound)
  }

  /** A token is not expired at its expiry instant and is expired one millisecond later. */
  lemma ExpiryBoundary(p: Payload)
    requires p.exp.Some?
    ensures !Expired(p, p.exp.value * 1000)
    ensures Expired(p, p.exp.value * 1000 + 1)
  {
  }

  /** Once expired, a token stays expired at every later instant. */
  lemma ExpiryMonotone(p: Payload, now: int, later: int)
    requires Expired(p, now) && now <= later
    ensures Expired(p, later)
  {
  }

  /**
   * The exemption compares the whole path: nothing that extends an exempt
   * path, such as `/user/logout/all`, is exempt.
   */
  lemma ExemptionIsExact(url: string, rest: string)
    requires ExpiryExempt(url) && rest != []
    ensures !ExpiryExempt(url + rest)
  {
    if url == LogoutPath {
      assert (url + rest)[6] == 'l' != RefreshPath[6];
    }
  }

  /**
   * An expired token off the two exempt paths is refused with the expiry
   * message, whatever the store holds and whether or not it would fail.
   */
  lemma ExpiredRejectedWithoutLookup(s: Store, s': Store, token: TokenList.Token, payload: Payload,
                                     now: int, baseUrl: string, path: string,
                                     fault: Option<string>, fault': Option<string>)
    requires Expired(payload, now) && !ExpiryExempt(baseUrl + path)
    ensures Verify(s, token, payload, now, baseUrl, path, fault) == Fail(MsgExpired)
    ensures Verify(s, token, payload, now, baseUrl, path, fault)
         == Verify(s', token, payload, now, baseUrl, path, fault')
  {
  }

  /** On an exempt path an expired token is judged exactly like a live one. */
  lemma ExemptIgnoresExpiry(s: Store, token: TokenList.Token, payload: Payload,
                            now: int, now': int, baseUrl: string, path: string, fault: Option<string>)
    requires ExpiryExempt(baseUrl + path)
    ensures Verify(s, token, payload, now, baseUrl, path, fault)
         == Verify(s, token, payload, now', baseUrl, path, fault)
  {
  }

  /**
   * Whenever the lookup is reached without a database error, the only
   * failure is "user missing or token revoked".
   */
  lemma LookupFailure(s: Store, token: TokenList.Token, payload: Payload,
                      now: int, baseUrl: string, path: string)
    requires !Expired(payload, now) || ExpiryExempt(baseUrl + path)
    requires payload.subject !in s.users || token !in s.users[payload.subject].tokens
    ensures Verify(s, token, payload, now, baseUrl, path, None) == Fail(MsgNotFound)
  {
  }

  /**
   * A database error is passed on as an error, not as an authentication
   * failure, unless its message happens to be one of the two the callback
   * itself throws.
   */
  lemma FaultIsError(s: Store, token: TokenList.Token, payload: Payload,
                     now: int, baseUrl: string, path: string, fault: string)
    requires !Expired(payload, now) || ExpiryExempt(baseUrl + path)
    requires fault != ThrownNotFound && fault != ThrownExpired
    ensures Verify(s, token, payload, now, baseUrl, path, Some(fault)) == Error(fault)
  {
  }
}

=== FILE: lifecycle.dfy ===
/**
 * The four protected routes of routers/user.js behind the `auth` guard, and
 * the session lifecycle properties that span the guard and the handlers:
 * a token that was logged out, rotated away or cleared no longer gets in,
 * and a freshly issued one does.
 */
module Lifecycle {
  import opened Basics
  import opened UserModel
  import opened TokenList
  import JwtStrategy
  import AuthMiddleware
  import UserController

  /** The router's mount point in index.js. */
  const MountPath: string := "/user"

  datatype Route = ProfileRoute | RefreshRoute | LogoutRoute | LogoutAllRoute

  function RoutePath(r: Route): string {
    match r
    case ProfileRoute => "/profile"
    case RefreshRoute => "/refresh"
    case LogoutRoute => "/logout"
    case LogoutAllRoute => "/logout/all"
  }

  /** Exactly the refresh and logout routes accept an expired token; logout-all does not. */
  lemma RouteExemption(r: Route)
    ensures JwtStrategy.ExpiryExempt(MountPath + RoutePath(r)) <==> (r == RefreshRoute || r == LogoutRoute)
  {
    match r
    case ProfileRoute => assert (MountPath + RoutePath(r))[6] == 'p';
    case LogoutAllRoute => assert |MountPath + RoutePath(r)| == 16;
    case _ =>
  }

  /**
   * A protected request: the guard, then on success the route's handler with
   * `req.user` and `req.token`. `issued` is the token the refresh handler
   * would sign.
   */
  function Handle(env: Env, s: Store, route: Route, x: AuthMiddleware.Extraction, now: int,
                  fault: Option<string>, issued: Option<Token>): (o: UserController.Outcome<UserController.Reply>)
    ensures AuthMiddleware.Authenticate(s, x, now, MountPath, RoutePath(route), fault).Respond? ==>
      o.store == s && !o.response.success
      && o.response.status == AuthMiddleware.Authenticate(s, x, now, MountPath, RoutePath(route), fault).status
  {
    match AuthMiddleware.Authenticate(s, x, now, MountPath, RoutePath(route), fault)
    case Respond(status, message) =>
      UserController.Outcome(s, UserController.Reply(status, false, Some(message), None, None))
    case Continue(u, t) =>
      match route
      case ProfileRoute => UserController.Outcome(s, UserController.GetProfile(u))
      case RefreshRoute => UserController.RefreshToken(env, s, u, t, issued)
      case LogoutRoute => UserController.Logout(env, s, u, t)
      case LogoutAllRoute => UserController.LogoutAll(env, s, u)
  }

  /** The guard admits a token exactly when it is live (or exempt) and listed for its subject. */
  predicate Admits(s: Store, token: Token, p: JwtStrategy.Payload, now: int, route: Route) {
    AuthMiddleware.Authenticate(s, AuthMiddleware.Decoded(token, p), now, MountPath, RoutePath(route), None).Continue?
  }

  /**
   * After a successful logout with token `t`, `t` is refused on every route
   * at every later time: the guard answers 401 "user missing or token revoked"
   * (or the expiry message, if it has expired off the exempt paths).
   */
  lemma LogoutRevokes(env: Env, s: Store, t: Token, p: JwtStrategy.Payload, now: int,
                                         issued: Option<Token>, route: Route, later: int)
    requires Indexed(s)
    requires Handle(env, s, LogoutRoute, AuthMiddleware.Decoded(t, p), now, None, issued).response.status
             == UserController.StatusOk
    ensures var s' := Handle(env, s, LogoutRoute, AuthMiddleware.Decoded(t, p), now, None, issued).store;
      !Admits(s', t, p, later, route)
  {
    var u := s.users[p.subject];
    var s' := Handle(env, s, LogoutRoute, AuthMiddleware.Decoded(t, p), now, None, issued).store;
    assert s'.users == s.users[u.id := u.(tokens := Remove(u.tokens, t))];
    assert u.id == p.subject;
  }

  /**
   * After a successful logout-all, no token whose subject is that user is
   * admitted anywhere.
   */
  lemma LogoutAllRevokesEvery(env: Env, s: Store, t: Token, p: JwtStrategy.Payload, now: int,
                                                 issued: Option<Token>, t': Token, p': JwtStrategy.Payload,
                                                 route: Route, later: int)
    requires Indexed(s)
    requires Handle(env, s, LogoutAllRoute, AuthMiddleware.Decoded(t, p), now, None, issued).response.status
             == UserController.StatusOk
    requires p'.subject == p.subject
    ensures var s' := Handle(env, s, LogoutAllRoute, AuthMiddleware.Decoded(t, p), now, None, issued).store;
      !Admits(s', t', p', later, route)
  {
    var u := s.users[p.subject];
    var s' := Handle(env, s, LogoutAllRoute, AuthMiddleware.Decoded(t, p), now, None, issued).store;
    assert s'.users == s.users[u.id := u.(tokens := [])];
    assert u.id == p.subject;
  }

  /**
   * A successful refresh rotates the session: the old token is refused from
   * then on, and the new one is admitted while live.
   */
  lemma RefreshRotates(env: Env, s: Store, t: Token, p: JwtStrategy.Payload, now: int,
                                          n: Token, pn: JwtStrategy.Payload, route: Route, later: int)
    requires Indexed(s)
    requires Handle(env, s, RefreshRoute, AuthMiddleware.Decoded(t, p), now, None, Some(n)).response.status
             == UserController.StatusOk
    requires n != t
    requires pn.subject == p.subject
    ensures var o := Handle(env, s, RefreshRoute, AuthMiddleware.Decoded(t, p), now, None, Some(n));
      && o.response.token == Some(n)
      && !Admits(o.store, t, p, later, route)
      && (!JwtStrategy.Expired(pn, later) ==> Admits(o.store, n, pn, later, route))
  {
    var u := s.users[p.subject];
    var o := Handle(env, s, RefreshRoute, AuthMiddleware.Decoded(t, p), now, None, Some(n));
    assert o.store.users == s.users[u.id := u.(tokens := UserController.RefreshTokens(u.tokens, t, n))];
    assert u.id == p.subject;
  }

  /**
   * An expired token that is still listed can be refreshed: on a sound store
   * the refresh succeeds, the old token leaves the list and the new one joins it.
   */
  lemma ExpiredTokenRefreshes(env: Env, s: Store, t: Token, p: JwtStrategy.Payload, now: int, n: Token)
    requires WellFormed(env, s)
    requires p.subject in s.users && t in s.users[p.subject].tokens
    requires JwtStrategy.Expired(p, now)
    requires n != t
    ensures var o := Handle(env, s, RefreshRoute, AuthMiddleware.Decoded(t, p), now, None, Some(n));
      && o.response.status == UserController.StatusOk
      && t !in o.store.users[p.subject].tokens
      && n in o.store.users[p.subject].tokens
  {
    RouteExemption(RefreshRoute);
    var u := s.users[p.subject];
    UserController.RefreshSucceeds(env, s, u, t, n);
  }

  /**
   * An expired token is refused with the expiry message on the routes that
   * are not exempt, logout-all included, whatever the store holds.
   */
  lemma ExpiredElsewhereRejected(env: Env, s: Store, t: Token, p: JwtStrategy.Payload, now: int,
                                                    fault: Option<string>, issued: Option<Token>, route: Route)
    requires JwtStrategy.Expired(p, now)
    requires route == ProfileRoute || route == LogoutAllRoute
    ensures var o := Handle(env, s, route, AuthMiddleware.Decoded(t, p), now, fault, issued);
      && o.store == s
      && o.response == UserController.Reply(AuthMiddleware.StatusUnauthorized, false, Some(JwtStrategy.MsgExpired), None, None)
  {
    RouteExemption(route);
    AuthMiddleware.ExpiredIs401(s, t, p, now, MountPath, RoutePath(route), fault);
  }

  /**
   * Issuing a token in the Google callback and presenting it right away
   * gets in, as long as it is live.
   */
  lemma IssuedTokenAdmitted(env: Env, s: Store, u: User, n: Token, p: JwtStrategy.Payload,
                                               now: int, route: Route)
    requires UserController.GoogleAuthCallback(env, s, Some(u), Some(n)).response.ToAuthCallback?
    requires p.subject == u.id
    requires !JwtStrategy.Expired(p, now)
    ensures Admits(UserController.GoogleAuthCallback(env, s, Some(u), Some(n)).store, n, p, now, route)
  {
    var o := UserController.GoogleAuthCallback(env, s, Some(u), Some(n));
    assert o.store.users[u.id].tokens == UserController.IssueTokens(u.tokens, n);
    assert n == UserController.IssueTokens(u.tokens, n)[|u.tokens|];
  }

  /**
   * Sign in with Google, log out with the token, then ask for the profile
   * with the same token: the answer is a 401 with the revoked-token message.
   */
  lemma SignInLogoutProfile(env: Env, s: Store, u: User, n: Token, p: JwtStrategy.Payload,
                                               now: int, later: int)
    requires WellFormed(env, s)
    requires u.id in s.users && s.users[u.id] == u
    requires p.subject == u.id
    requires !JwtStrategy.Expired(p, now)
    ensures var s1 := UserController.GoogleAuthCallback(env, s, Some(u), Some(n)).store;
      var o2 := Handle(env, s1, LogoutRoute, AuthMiddleware.Decoded(n, p), now, None, None);
      var o3 := Handle(env, o2.store, ProfileRoute, AuthMiddleware.Decoded(n, p), later, None, None);
      && o2.response.status == UserController.StatusOk
      && o3.store == o2.store
      && o3.response.status == AuthMiddleware.StatusUnauthorized
  {
    UserController.GoogleCallbackSucceeds(env, s, u, n);
    var s1 := UserController.GoogleAuthCallback(env, s, Some(u), Some(n)).store;
    IssuedTokenAdmitted(env, s, u, n, p, now, LogoutRoute);
    var u1 := s1.users[u.id];
    UserController.LogoutSucceeds(env, s1, u1, n);
    var o2 := Handle(env, s1, LogoutRoute, AuthMiddleware.Decoded(n, p), now, None, None);
    LogoutRevokes(env, s1, n, p, now, None, ProfileRoute, later);
    var o3 := Handle(env, o2.store, ProfileRoute, AuthMiddleware.Decoded(n, p), later, None, None);
    if JwtStrategy.Expired(p, later) {
      RouteExemption(ProfileRoute);
    } else {
      JwtStrategy.LookupFailure(o2.store, n, p, later, MountPath, RoutePath(ProfileRoute));
    }
  }
}

=== FILE: text.dfy ===
/** The two string setters the user schema uses: `trim` and `lowercase`. */
module Text {

  /**
   * The characters `String.prototype.trim` strips: the code points of the
   * WhiteSpace and LineTerminator productions of ECMA-262.
   */
  predicate IsTrimmable(c: char) {
    || c == '\t' || c == '\n' || c == '\U{000B}' || c == '\U{000C}' || c == '\r'
    || c == ' ' || c == '\U{00A0}' || c == '\U{1680}'
    || ('\U{2000}' <= c <= '\U{200A}')
    || c == '\U{2028}' || c == '\U{2029}' || c == '\U{202F}' || c == '\U{205F}'
    || c == '\U{3000}' || c == '\U{FEFF}'
  }

  predicate AllTrimmable(s: string) {
    forall i :: 0 <= i < |s| ==> IsTrimmable(s[i])
  }

  /** No trimmable character at either end. */
  predicate IsTrimmed(s: string) {
    s == [] || (!IsTrimmable(s[0]) && !IsTrimmable(s[|s| - 1]))
  }

  /** The first index at or after `i` holding a kept character, or `|s|`. */
  function FirstKept(s: string, i: nat): (k: nat)
    requires i <= |s|
    ensures i <= k <= |s|
    ensures forall m :: i <= m < k ==> IsTrimmable(s[m])
    ensures k < |s| ==> !IsTrimmable(s[k])
    decreases |s| - i
  {
    if i == |s| || !IsTrimmable(s[i]) then i else FirstKept(s, i + 1)
  }

  /** The last index at or before `j`, and after `lo`, that ends a kept character, or `lo`. */
  function LastKept(s: string, lo: nat, j: nat): (k: nat)
    requires lo <= j <= |s|
    ensures lo <= k <= j
    ensures forall m :: k <= m < j ==> IsTrimmable(s[m])
    ensures k > lo ==> !IsTrimmable(s[k - 1])
    decreases j
  {
    if j == lo || !IsTrimmable(s[j - 1]) then j else LastKept(s, lo, j - 1)
  }

  /**
   * `s.trim()`: `s` splits as lead + r + trail, with lead and trail made of
   * trimmable characters only and r starting and ending with a kept character.
   */
  function Trim(s: string): (r: string)
    ensures IsTrimmed(r)
    ensures exists i, j :: 0 <= i <= j <= |s| && r == s[i..j] && AllTrimmable(s[..i]) && AllTrimmable(s[j..])
  {
    var i := FirstKept(s, 0);
    var j := LastKept(s, i, |s|);
    assert i < j ==> !IsTrimmable(s[i]);
    assert AllTrimmable(s[..i]);
    assert AllTrimmable(s[j..]);
    s[i..j]
  }

  /** A string that is already trimmed is its own trim. */
  lemma TrimFixesTrimmed(s: string)
    requires IsTrimmed(s)
    ensures Trim(s) == s
  {
    assert FirstKept(s, 0) == 0;
    assert LastKept(s, 0, |s|) == |s|;
  }

  /** A string trims to nothing exactly when it is made of whitespace only. */
  lemma TrimEmptyIffBlank(s: string)
    ensures Trim(s) == [] <==> AllTrimmable(s)
  {
    var i, j :| 0 <= i <= j <= |s| && Trim(s) == s[i..j] && AllTrimmable(s[..i]) && AllTrimmable(s[j..]);
    if Trim(s) == [] {
      forall k | 0 <= k < |s| ensures IsTrimmable(s[k]) {
        if k < i { assert s[..i][k] == s[k]; } else { assert s[j..][k - j] == s[k]; }
      }
    }
  }

  /** Trimming twice is trimming once. */
  lemma TrimIdempotent(s: string)
    ensures Trim(Trim(s)) == Trim(s)
  {
    TrimFixesTrimmed(Trim(s));
  }

  predicate IsUpperAscii(c: char) {
    'A' <= c <= 'Z'
  }

  function LowerChar(c: char): char {
    if IsUpperAscii(c) then (c as int + 32) as char else c
  }

  /**
   * `s.toLowerCase()` on the ASCII letters: same length, no upper-case
   * ASCII letter left, and every position agrees with `s` up to case.
   */
  function Lower(s: string): (r: string)
    ensures |r| == |s|
    ensures forall i :: 0 <= i < |r| ==> !IsUpperAscii(r[i])
    ensures forall i :: 0 <= i < |r| ==> LowerChar(r[i]) == LowerChar(s[i])
  {
    seq(|s|, i requires 0 <= i < |s| => LowerChar(s[i]))
  }

  predicate NoUpper(s: string) {
    forall i :: 0 <= i < |s| ==> !IsUpperAscii(s[i])
  }

  lemma {:induction false} LowerFixesLowered(s: string)
    requires NoUpper(s)
    ensures Lower(s) == s
  {
    if s != [] {
      LowerFixesLowered(s[1..]);
    }
  }

  /** The email setters, `lowercase` then `trim`. */
  function Normalise(s: string): string {
    Trim(Lower(s))
  }

  /** A normalised email is trimmed and has no upper-case ASCII letter. */
  lemma NormaliseShape(s: string)
    ensures IsTrimmed(Normalise(s)) && NoUpper(Normalise(s))
  {
    var l := Lower(s);
    var i, j :| 0 <= i <= j <= |l| && Normalise(s) == l[i..j];
    assert forall k :: 0 <= k < j - i ==> Normalise(s)[k] == l[i + k];
  }

  /** Storing an already stored email again leaves it as it is. */
  lemma NormaliseIdempotent(s: string)
    ensures Normalise(Normalise(s)) == Normalise(s)
  {
    NormaliseShape(s);
    LowerFixesLowered(Normalise(s));
    TrimFixesTrimmed(Normalise(s));
  }
}

=== FILE: tokens.dfy ===
/**
 * The per-user token list: an ordered sequence of raw bearer strings, one per
 * signed-in device, in issuance order.
 */
module TokenList {

  type Token = string

  /** Number of occurrences of `t` in `xs`. */
  function Count(xs: seq<Token>, t: Token): nat
  {
    if xs == [] then 0 else (if xs[0] == t then 1 else 0) + Count(xs[1..], t)
  }

  /** `a` can be obtained from `b` by deleting elements: relative order is kept. */
  predicate IsSubsequence(a: seq<Token>, b: seq<Token>)
  {
    if a == [] then true
    else if b == [] then false
    else if a[0] == b[0] then IsSubsequence(a[1..], b[1..])
    else IsSubsequence(a, b[1..])
  }

  /** A token is present exactly when it occurs a positive number of times. */
  lemma {:induction false} CountPositiveIffIn(xs: seq<Token>, t: Token)
    ensures Count(xs, t) > 0 <==> t in xs
  {
    if xs != [] {
      CountPositiveIffIn(xs[1..], t);
      assert t in xs <==> xs[0] == t || t in xs[1..];
    }
  }

  /** Counting over a concatenation adds up. */
  lemma {:induction false} CountConcat(xs: seq<Token>, ys: seq<Token>, t: Token)
    ensures Count(xs + ys, t) == Count(xs, t) + Count(ys, t)
  {
    if xs != [] {
      assert (xs + ys)[0] == xs[0];
      assert (xs + ys)[1..] == xs[1..] + ys;
      CountConcat(xs[1..], ys, t);
    } else {
      assert xs + ys == ys;
    }
  }

  /**
   * `xs.filter((x) => x !== t)`: every occurrence of `t` is gone, every other
   * token keeps its number of occurrences, and the survivors keep their
   * relative order.
   */
  function Remove(xs: seq<Token>, t: Token): (r: seq<Token>)
    ensures t !in r
    ensures forall u {:trigger Count(r, u)} :: u != t ==> Count(r, u) == Count(xs, u)
    ensures |r| == |xs| - Count(xs, t)
    ensures IsSubsequence(r, xs)
  {
    if xs == [] then []
    else if xs[0] == t then Remove(xs[1..], t)
    else
      var rest := Remove(xs[1..], t);
      assert ([xs[0]] + rest)[1..] == rest;
      [xs[0]] + rest
  }

  /** A subsequence never holds more copies of a token than the original. */
  lemma {:induction false} SubsequenceCountBound(a: seq<Token>, b: seq<Token>, t: Token)
    requires IsSubsequence(a, b)
    ensures Count(a, t) <= Count(b, t)
  {
    if a != [] {
      assert b != [];
      if a[0] == b[0] {
        SubsequenceCountBound(a[1..], b[1..], t);
      } else {
        SubsequenceCountBound(a, b[1..], t);
      }
    }
  }

  /**
   * `Remove` is the only list that drops `t`, keeps the count of every other
   * token, and keeps the original order: the filter is fully determined by
   * those three facts.
   */
  lemma {:induction false} RemoveCharacterised(xs: seq<Token>, t: Token, r: seq<Token>)
    requires t !in r
    requires forall u {:trigger Count(r, u)} :: u != t ==> Count(r, u) == Count(xs, u)
    requires IsSubsequence(r, xs)
    ensures r == Remove(xs, t)
  {
    if xs == [] {
    } else if xs[0] == t {
      if r != [] {
        assert r[0] != xs[0];
      }
      assert IsSubsequence(r, xs[1..]);
      forall u | u != t
        ensures Count(r, u) == Count(xs[1..], u)
      {
        assert Count(r, u) == Count(xs, u);
      }
      RemoveCharacterised(xs[1..], t, r);
    } else {
      var x := xs[0];
      assert Count(r, x) == Count(xs, x) == 1 + Count(xs[1..], x);
      if r == [] {
        assert false;
      } else if r[0] == x {
        assert IsSubsequence(r[1..], xs[1..]);
        forall u | u != t
          ensures Count(r[1..], u) == Count(xs[1..], u)
        {
          assert Count(r, u) == Count(xs, u);
        }
        RemoveCharacterised(xs[1..], t, r[1..]);
        assert r == [r[0]] + r[1..];
      } else {
        assert IsSubsequence(r, xs[1..]);
        SubsequenceCountBound(r, xs[1..], x);
        assert false;
      }
    }
  }

  /** Filtering out a token that is not there changes nothing. */
  lemma {:induction false} RemoveAbsent(xs: seq<Token>, t: Token)
    requires t !in xs
    ensures Remove(xs, t) == xs
  {
    if xs != [] {
      RemoveAbsent(xs[1..], t);
      assert xs == [xs[0]] + xs[1..];
    }
  }

  /** Removing the same token twice is removing it once. */
  lemma RemoveIdempotent(xs: seq<Token>, t: Token)
    ensures Remove(Remove(xs, t), t) == Remove(xs, t)
  {
    RemoveAbsent(Remove(xs, t), t);
  }

  /** Members of a filtered list were members of the original list. */
  lemma RemoveSubset(xs: seq<Token>, t: Token, u: Token)
    ensures u in Remove(xs, t) <==> u in xs && u != t
  {
    CountPositiveIffIn(Remove(xs, t), u);
    CountPositiveIffIn(xs, u);
  }
}

=== FILE: user_controller.dfy ===
/**
 * The handlers of controllers/userController.js, as transformations of the
 * authenticated user's token list followed by `user.save()`.
 */
module UserController {
  import opened Basics
  import opened UserModel
  import opened TokenList

  /** A JSON response: status, `success`, and the optional `message`, `token` and `data` fields. */
  datatype Reply = Reply(status: nat, success: bool, message: Option<string>,
                         token: Option<Token>, data: Option<Document>)

  /** The two browser redirects of the Google callback. */
  datatype Redirect =
    | ToLogin(error: string)      // FRONTEND_URL/login?error=...
    | ToAuthCallback(token: Token) // FRONTEND_URL/auth/callback?token=...

  /** A handler's effect: the collection afterwards, and what was sent. */
  datatype Outcome<R> = Outcome(store: Store, response: R)

  const StatusOk: nat := 200

  // ------------------------------------------------- token-list transformations

  /** `tokens.filter((t) => t !== token)`: this device's session is dropped. */
  function LogoutTokens(tokens: seq<Token>, token: Token): (r: seq<Token>)
    ensures token !in r
    ensures forall u :: u in r <==> u in tokens && u != token
    ensures IsSubsequence(r, tokens)
    ensures |r| == |tokens| - Count(tokens, token)
  {
    var r := Remove(tokens, token);
    forall u ensures u in r <==> u in tokens && u != token {
      RemoveSubset(tokens, token, u);
    }
    r
  }

  /**
   * The old token filtered out and the new one pushed: the new token is last,
   * everything before it is the filtered list, and the length moves by
   * `1 - Count(tokens, oldToken)`.
   */
  function RefreshTokens(tokens: seq<Token>, oldToken: Token, newToken: Token): (r: seq<Token>)
    ensures |r| > 0 && r[|r| - 1] == newToken
    ensures r[..|r| - 1] == Remove(tokens, oldToken)
    ensures newToken != oldToken ==> oldToken !in r
    ensures newToken in r
    ensures |r| == |tokens| - Count(tokens, oldToken) + 1
    ensures |r| == |tokens| <==> Count(tokens, oldToken) == 1
  {
    var r := Remove(tokens, oldToken) + [newToken];
    assert r[..|r| - 1] == Remove(tokens, oldToken);
    r
  }

  /** `tokens.push(token)`: one more session at the end, the earlier ones untouched. */
  function IssueTokens(tokens: seq<Token>, token: Token): (r: seq<Token>)
    ensures |r| == |tokens| + 1
    ensures r[..|tokens|] == tokens && r[|tokens|] == token
    ensures forall u {:trigger Count(r, u)} :: Count(r, u) == Count(tokens, u) + (if u == token then 1 else 0)
  {
    var r := tokens + [token];
    forall u ensures Count(r, u) == Count(tokens, u) + (if u == token then 1 else 0) {
      CountConcat(tokens, [token], u);
      assert [token][1..] == [];
    }
    r
  }

  // ---------------------------------------------------------------- handlers

  /** `user.save()` after the handler has replaced the token list. */
  function SaveTokens(env: Env, s: Store, u: User, tokens: seq<Token>): Result<Saved, Error> {
    Save(env, s, u.(tokens := tokens), false)
  }

  /** `logout`: drops the presented token from the user's list. */
  function Logout(env: Env, s: Store, u: User, token: Token): (o: Outcome<Reply>)
    ensures o.response.status in {StatusOk, StatusServerError}
    ensures o.response.status == StatusOk ==>
      o.store.users == s.users[u.id := u.(tokens := Remove(u.tokens, token))]
    ensures o.response.status == StatusOk <==> SaveTokens(env, s, u, Remove(u.tokens, token)).Ok?
    ensures o.response.status == StatusServerError ==> o.store == s
  {
    match SaveTokens(env, s, u, LogoutTokens(u.tokens, token))
    case Ok(saved) => Outcome(saved.store, Reply(StatusOk, true, Some("登出成功"), None, None))
    case Err(_) => Outcome(s, Reply(StatusServerError, false, Some("登出失敗"), None, None))
  }

  /** `logoutAll`: every session of the user ends. */
  function LogoutAll(env: Env, s: Store, u: User): (o: Outcome<Reply>)
    ensures o.response.status in {StatusOk, StatusServerError}
    ensures o.response.status == StatusOk ==>
      u.id in o.store.users && o.store.users[u.id].tokens == []
      && o.store.users == s.users[u.id := u.(tokens := [])]
    ensures o.response.status == StatusOk <==> SaveTokens(env, s, u, []).Ok?
    ensures o.response.status == StatusServerError ==> o.store == s
  {
    match SaveTokens(env, s, u, [])
    case Ok(saved) => Outcome(saved.store, Reply(StatusOk, true, Some("已登出所有裝置"), None, None))
    case Err(_) => Outcome(s, Reply(StatusServerError, false, Some("登出失敗"), None, None))
  }

  /**
   * `refreshToken`: `issued` is the freshly signed token (`None` when signing
   * throws). On success the reply carries the new token.
   */
  function RefreshToken(env: Env, s: Store, u: User, oldToken: Token, issued: Option<Token>): (o: Outcome<Reply>)
    ensures o.response.status in {StatusOk, StatusServerError}
    ensures o.response.status == StatusOk ==>
      issued.Some? && o.response.token == issued
      && o.store.users == s.users[u.id := u.(tokens := RefreshTokens(u.tokens, oldToken, issued.value))]
    ensures o.response.status == StatusServerError ==> o.store == s && o.response.token.None?
    ensures issued.None? ==> o.response.status == StatusServerError
    ensures o.response.status == StatusOk <==>
      issued.Some? && SaveTokens(env, s, u, RefreshTokens(u.tokens, oldToken, issued.value)).Ok?
  {
    match issued
    case None => Outcome(s, Reply(StatusServerError, false, Some("Token 更新失敗"), None, None))
    case Some(newToken) =>
      match SaveTokens(env, s, u, RefreshTokens(u.tokens, oldToken, newToken))
      case Ok(saved) => Outcome(saved.store, Reply(StatusOk, true, Some("Token 更新成功"), Some(newToken), None))
      case Err(_) => Outcome(s, Reply(StatusServerError, false, Some("Token 更新失敗"), None, None))
  }

  const AuthFailed: string := "auth_failed"
  const ServerError: string := "server_error"

  /**
   * `googleAuthCallback`: with no user nothing is issued or written; with a
   * user, the issued token is appended and handed to the front end.
   */
  function GoogleAuthCallback(env: Env, s: Store, user: Option<User>, issued: Option<Token>)
    : (o: Outcome<Redirect>)
    ensures user.None? ==> o == Outcome(s, ToLogin(AuthFailed))
    ensures o.response.ToAuthCallback? ==>
      user.Some? && issued == Some(o.response.token)
      && o.store.users == s.users[user.value.id := user.value.(tokens := IssueTokens(user.value.tokens, issued.value))]
    ensures o.response.ToAuthCallback? <==>
      user.Some? && issued.Some?
      && SaveTokens(env, s, user.value, IssueTokens(user.value.tokens, issued.value)).Ok?
    ensures user.Some? && o.response.ToLogin? ==> o.response.error == ServerError
    ensures o.response.ToLogin? ==> o.store == s
  {
    match user
    case None => Outcome(s, ToLogin(AuthFailed))
    case Some(u) =>
      match issued
      case None => Outcome(s, ToLogin(ServerError))
      case Some(token) =>
        match SaveTokens(env, s, u, IssueTokens(u.tokens, token))
        case Ok(saved) => Outcome(saved.store, ToAuthCallback(token))
        case Err(_) => Outcome(s, ToLogin(ServerError))
  }

  /** `getProfile`: the user as serialised by `toJSON`, with no secret in it. */
  function GetProfile(u: User): (r: Reply)
    ensures r.status == StatusOk && r.success && r.data.Some?
    ensures forall k :: k in Hidden ==> k !in r.data.value
    ensures forall k :: k in r.data.value ==> k in ToObject(u) && r.data.value[k] == ToObject(u)[k]
    ensures forall k :: k in ToObject(u) && k !in Hidden ==> k in r.data.value
  {
    Reply(StatusOk, true, None, None, Some(ToJson(u)))
  }

  // ------------------------------------------------ the handlers on a sound store

  /** Changing only the tokens of a stored record keeps it savable, and the store sound. */
  lemma TokenSaveSucceeds(env: Env, s: Store, u: User, tokens: seq<Token>)
    requires WellFormed(env, s)
    requires u.id in s.users && s.users[u.id] == u
    ensures SaveTokens(env, s, u, tokens) == Ok(Saved(Store(s.users[u.id := u.(tokens := tokens)], s.byEmail), u.(tokens := tokens)))
    ensures WellFormed(env, SaveTokens(env, s, u, tokens).value.store)
  {
    SaveUntouchedSucceeds(env, s, u.(tokens := tokens));
  }

  /** On a sound store, logout succeeds. */
  lemma LogoutSucceeds(env: Env, s: Store, u: User, token: Token)
    requires WellFormed(env, s)
    requires u.id in s.users && s.users[u.id] == u
    ensures Logout(env, s, u, token).response.status == StatusOk
    ensures WellFormed(env, Logout(env, s, u, token).store)
  {
    TokenSaveSucceeds(env, s, u, LogoutTokens(u.tokens, token));
  }

  /** On a sound store, logout-all succeeds. */
  lemma LogoutAllSucceeds(env: Env, s: Store, u: User)
    requires WellFormed(env, s)
    requires u.id in s.users && s.users[u.id] == u
    ensures LogoutAll(env, s, u).response.status == StatusOk
    ensures WellFormed(env, LogoutAll(env, s, u).store)
  {
    TokenSaveSucceeds(env, s, u, []);
  }

  /** On a sound store, a refresh with a signed token succeeds. */
  lemma RefreshSucceeds(env: Env, s: Store, u: User, oldToken: Token, newToken: Token)
    requires WellFormed(env, s)
    requires u.id in s.users && s.users[u.id] == u
    ensures RefreshToken(env, s, u, oldToken, Some(newToken)).response.status == StatusOk
    ensures WellFormed(env, RefreshToken(env, s, u, oldToken, Some(newToken)).store)
  {
    TokenSaveSucceeds(env, s, u, RefreshTokens(u.tokens, oldToken, newToken));
  }

  /** On a sound store, the Google callback with a user and a signed token redirects with it. */
  lemma GoogleCallbackSucceeds(env: Env, s: Store, u: User, token: Token)
    requires WellFormed(env, s)
    requires u.id in s.users && s.users[u.id] == u
    ensures GoogleAuthCallback(env, s, Some(u), Some(token)).response == ToAuthCallback(token)
    ensures WellFormed(env, GoogleAuthCallback(env, s, Some(u), Some(token)).store)
  {
    TokenSaveSucceeds(env, s, u, IssueTokens(u.tokens, token));
  }
}

=== FILE: user_model.dfy ===
/**
 * The user record of models/user.js: schema fields with their defaults and
 * setters, the validators run on save, the pre-save password hook, the
 * `comparePassword` guard, the `toJSON` projection, and the collection the
 * records live in.
 */
module UserModel {
  import opened Basics
  import Text
  import TokenList

  type UserId = string

  /** One stored user document. `version` is mongoose's `__v` key. */
  datatype User = User(
    id: UserId,
    email: string,
    password: Option<string>,
    googleId: Option<string>,
    displayName: string,
    avatar: string,
    tokens: seq<TokenList.Token>,
    version: nat)

  /**
   * The users collection: documents by `_id`, and the unique index on
   * `email` (normalised email to the `_id` holding it).
   */
  datatype Store = Store(users: map<UserId, User>, byEmail: map<string, UserId>)

  /**
   * Collaborators the schema calls into: `validator.isEmail`, and
   * `bcrypt.hash` at cost 10 (`None` when it throws).
   */
  datatype Env = Env(isEmail: string -> bool, hash: string -> Option<string>)

  datatype Error =
    | ValidationFailed(paths: set<string>)
    | DuplicateKey(path: string)
    | HashFailed
    | DocumentNotFound

  /** A successful write: the collection afterwards and the document as written. */
  datatype Saved = Saved(store: Store, user: User)

  const MinPasswordLength: nat := 6

  // ---------------------------------------------------------------- validation

  /** The `required` function of the password path: `!this.googleId`. */
  predicate PasswordRequired(u: User) {
    !Truthy(u.googleId)
  }

  /**
   * The paths whose validators fail. A required string fails when missing or
   * empty; `minlength` only looks at a password that is present.
   */
  function FieldErrors(env: Env, u: User): (r: set<string>)
    ensures r <= {"email", "password", "displayName"}
    ensures r == {} <==>
      && u.email != "" && env.isEmail(u.email)
      && u.displayName != ""
      && (PasswordRequired(u) ==> Truthy(u.password))
      && (u.password.Some? ==> |u.password.value| >= MinPasswordLength)
  {
    (if u.email == "" || !env.isEmail(u.email) then {"email"} else {})
    + (if (PasswordRequired(u) && !Truthy(u.password))
          || (u.password.Some? && |u.password.value| < MinPasswordLength)
       then {"password"} else {})
    + (if u.displayName == "" then {"displayName"} else {})
  }

  /**
   * A record without password is acceptable exactly when it has a Google id;
   * a record with one is acceptable exactly when it has at least six characters.
   */
  lemma PasswordRule(env: Env, u: User)
    ensures u.password.None? ==> ("password" !in FieldErrors(env, u) <==> Truthy(u.googleId))
    ensures u.password.Some? ==> ("password" !in FieldErrors(env, u) <==> |u.password.value| >= MinPasswordLength)
  {
  }

  /**
   * The display name is required after the trim setter has run, so a name
   * made of whitespace only is refused.
   */
  lemma DisplayNameRule(env: Env, u: User, n: string)
    ensures "displayName" !in FieldErrors(env, u.(displayName := Text.Trim(n))) <==> !Text.AllTrimmable(n)
  {
    Text.TrimEmptyIffBlank(n);
  }

  // ------------------------------------------------------------ the collection

  /** Ids match their keys and the email index is exactly the emails in use. */
  predicate Indexed(s: Store) {
    && (forall id :: id in s.users ==> s.users[id].id == id)
    && (forall id :: id in s.users ==> s.users[id].email in s.byEmail && s.byEmail[s.users[id].email] == id)
    && (forall e :: e in s.byEmail ==> s.byEmail[e] in s.users && s.users[s.byEmail[e]].email == e)
  }

  /** What the setters guarantee of a stored record: email and display name normalised. */
  predicate Normalised(u: User) {
    Text.IsTrimmed(u.email) && Text.NoUpper(u.email) && Text.IsTrimmed(u.displayName)
  }

  /**
   * Every stored record went through the setters and passes its validators,
   * and the index is consistent.
   */
  predicate WellFormed(env: Env, s: Store) {
    && Indexed(s)
    && (forall id :: id in s.users ==> FieldErrors(env, s.users[id]) == {})
    && (forall id :: id in s.users ==> Normalised(s.users[id]))
  }

  /** bcrypt hashes are 60 characters long, so a stored hash passes `minlength`. */
  ghost predicate HashesAreLong(env: Env) {
    forall p :: env.hash(p).Some? ==> |env.hash(p).value| >= MinPasswordLength
  }

  /** The unique index makes emails unique across the collection. */
  lemma EmailsUnique(s: Store, a: UserId, b: UserId)
    requires Indexed(s)
    requires a in s.users && b in s.users
    requires s.users[a].email == s.users[b].email
    ensures a == b
  {
    assert s.byEmail[s.users[a].email] == a;
  }

  /**
   * `User.findOne({ email })`. Mongoose runs the path's setters on query
   * values, so the lookup key is the lower-cased, trimmed email.
   */
  function FindByEmail(s: Store, email: string): (r: Option<User>)
    ensures Indexed(s) ==>
      (r.Some? <==> exists id :: id in s.users && s.users[id].email == Text.Normalise(email))
    ensures Indexed(s) && r.Some? ==>
      r.value.id in s.users && s.users[r.value.id] == r.value && r.value.email == Text.Normalise(email)
  {
    var e := Text.Normalise(email);
    if e in s.byEmail && s.byEmail[e] in s.users then Some(s.users[s.byEmail[e]]) else None
  }

  /** The lookup finds the stored record whose email is the normalised query value. */
  lemma FindByEmailFinds(s: Store, u: User, email: string)
    requires Indexed(s)
    requires u.id in s.users && s.users[u.id] == u
    requires u.email == Text.Normalise(email)
    ensures FindByEmail(s, email) == Some(u)
  {
    assert s.byEmail[u.email] == u.id;
  }

  /** `User.findOne({ _id: id, tokens: token })`: the array query matches any element. */
  function FindByIdAndToken(s: Store, id: UserId, token: TokenList.Token): (r: Option<User>)
    ensures r.Some? <==> id in s.users && token in s.users[id].tokens
    ensures r.Some? ==> r.value == s.users[id]
  {
    if id in s.users && token in s.users[id].tokens then Some(s.users[id]) else None
  }

  // ------------------------------------------------------- documents and saving

  /** The values handed to `User.create`. */
  datatype Fields = Fields(
    email: string,
    password: Option<string>,
    googleId: Option<string>,
    displayName: string,
    avatar: Option<string>)

  /**
   * A new document: setters applied (email lower-cased and trimmed, display
   * name trimmed) and defaults filled in (googleId null, avatar '', tokens []).
   */
  function NewDocument(id: UserId, f: Fields): (u: User)
    ensures u.id == id && u.password == f.password && u.tokens == [] && u.version == 0
    ensures Normalised(u)
    ensures u.email == Text.Normalise(f.email) && u.displayName == Text.Trim(f.displayName)
    ensures u.googleId == f.googleId
    ensures f.avatar.None? ==> u.avatar == ""
    ensures f.avatar.Some? ==> u.avatar == f.avatar.value
  {
    Text.NormaliseShape(f.email);
    User(id, Text.Normalise(f.email), f.password, f.googleId, Text.Trim(f.displayName),
         f.avatar.GetOr(""), [], 0)
  }

  /**
   * The pre-save hook: the password is replaced by its hash only when it was
   * modified and is non-empty; nothing else in the record changes.
   */
  function HashPassword(env: Env, u: User, modified: bool): (r: Result<User, Error>)
    ensures r.Ok? ==> r.value.(password := u.password) == u
    ensures !(modified && Truthy(u.password)) ==> r == Ok(u)
    ensures modified && Truthy(u.password) ==>
      (r.Ok? <==> env.hash(u.password.value).Some?)
      && (r.Ok? ==> r.value.password == env.hash(u.password.value))
      && (r.Err? ==> r.error == HashFailed)
  {
    if modified && Truthy(u.password) then
      match env.hash(u.password.value)
      case Some(h) => Ok(u.(password := Some(h)))
      case None => Err(HashFailed)
    else Ok(u)
  }

  /**
   * `user.save()` of a document already in the collection: validators, then
   * the pre-save hook, then the write, which fails when the document is gone
   * or another document holds the email.
   */
  function Save(env: Env, s: Store, u: User, passwordModified: bool): (r: Result<Saved, Error>)
    ensures r.Ok? ==> FieldErrors(env, u) == {} && u.id in s.users
    ensures r.Ok? ==> r.value.user.(password := u.password) == u
    ensures r.Ok? ==> r.value.store.users == s.users[u.id := r.value.user]
    ensures r.Ok? ==> HashPassword(env, u, passwordModified) == Ok(r.value.user)
    ensures Indexed(s) && r.Ok? ==> Indexed(r.value.store)
    ensures FieldErrors(env, u) != {} ==> r == Err(ValidationFailed(FieldErrors(env, u)))
  {
    var errs := FieldErrors(env, u);
    if errs != {} then Err(ValidationFailed(errs))
    else match HashPassword(env, u, passwordModified)
      case Err(e) => Err(e)
      case Ok(h) =>
        if u.id !in s.users then Err(DocumentNotFound)
        else if u.email in s.byEmail && s.byEmail[u.email] != u.id then Err(DuplicateKey("email"))
        else
          var index := (s.byEmail - {s.users[u.id].email})[u.email := u.id];
          Ok(Saved(Store(s.users[u.id := h], index), h))
  }

  /**
   * Saving a stored, valid document whose email and password are untouched
   * always succeeds and writes it back as it is.
   */
  lemma SaveUntouchedSucceeds(env: Env, s: Store, u: User)
    requires WellFormed(env, s)
    requires u.id in s.users && u.email == s.users[u.id].email
    requires FieldErrors(env, u) == {} && Normalised(u)
    ensures Save(env, s, u, false).Ok?
    ensures Save(env, s, u, false).value == Saved(Store(s.users[u.id := u], s.byEmail), u)
    ensures WellFormed(env, Save(env, s, u, false).value.store)
  {
    var r := Save(env, s, u, false);
    assert s.byEmail[u.email] == u.id;
    var s' := r.value.store;
    assert s'.byEmail == s.byEmail;
    assert Indexed(s') by {
      forall id | id in s'.users
        ensures s'.users[id].email in s'.byEmail && s'.byEmail[s'.users[id].email] == id
      {
        if id != u.id {
          assert s'.users[id] == s.users[id];
        }
      }
    }
  }

  /** `Model.create`: a new document is validated, hashed and inserted. */
  function Insert(env: Env, s: Store, u: User): (r: Result<Saved, Error>)
    ensures r.Ok? <==>
      && FieldErrors(env, u) == {}
      && HashPassword(env, u, u.password.Some?).Ok?
      && u.id !in s.users
      && u.email !in s.byEmail
    ensures r.Ok? ==> r.value.user.(password := u.password) == u
    ensures r.Ok? ==> r.value.store.users == s.users[u.id := r.value.user]
    ensures r.Ok? ==> r.value.store.byEmail == s.byEmail[u.email := u.id]
    ensures r.Ok? ==> HashPassword(env, u, u.password.Some?) == Ok(r.value.user)
    ensures r == Err(DuplicateKey("email")) ==> u.email in s.byEmail
  {
    var errs := FieldErrors(env, u);
    if errs != {} then Err(ValidationFailed(errs))
    else match HashPassword(env, u, u.password.Some?)
      case Err(e) => Err(e)
      case Ok(h) =>
        if u.id in s.users then Err(DuplicateKey("_id"))
        else if u.email in s.byEmail then Err(DuplicateKey("email"))
        else Ok(Saved(Store(s.users[u.id := h], s.byEmail[u.email := u.id]), h))
  }

  /** An insert keeps the collection well formed. */
  lemma InsertPreservesWellFormed(env: Env, s: Store, u: User)
    requires WellFormed(env, s) && HashesAreLong(env)
    requires Normalised(u)
    requires Insert(env, s, u).Ok?
    ensures WellFormed(env, Insert(env, s, u).value.store)
  {
    var h := Insert(env, s, u).value.user;
    var s' := Insert(env, s, u).value.store;
    assert FieldErrors(env, h) == {} by {
      if h.password != u.password {
        assert h.password == env.hash(u.password.value);
      }
    }
    assert Indexed(s') by {
      forall id | id in s'.users
        ensures s'.users[id].email in s'.byEmail && s'.byEmail[s'.users[id].email] == id
      {
        if id != u.id {
          assert s'.users[id] == s.users[id];
          assert s.users[id].email != u.email;
        }
      }
    }
  }

  /** `User.create(fields)` with a freshly generated `_id`. */
  function Create(env: Env, s: Store, id: UserId, f: Fields): (r: Result<Saved, Error>)
    ensures r.Ok? ==> id !in s.users && r.value.store.users == s.users[id := r.value.user]
    ensures r.Ok? ==> r.value.user.id == id && r.value.user.tokens == [] && Normalised(r.value.user)
    ensures r.Ok? ==> r.value.user.email == Text.Normalise(f.email)
    ensures r.Ok? ==> r.value.user.displayName == Text.Trim(f.displayName)
    ensures r.Ok? ==> r.value.user.googleId == f.googleId && r.value.user.avatar == f.avatar.GetOr("")
  {
    Insert(env, s, NewDocument(id, f))
  }

  /**
   * `comparePassword`: false for a record without a (non-empty) password,
   * otherwise whatever the bcrypt comparison says.
   */
  function ComparePassword(u: User, candidate: string, compare: (string, string) -> bool): (r: bool)
    ensures !Truthy(u.password) ==> !r
    ensures Truthy(u.password) ==> r == compare(candidate, u.password.value)
  {
    if !Truthy(u.password) then false else compare(candidate, u.password.value)
  }

  /**
   * After a save that hashed a new password, the same plaintext matches the
   * stored hash, given bcrypt's non-empty hashes and a comparison that
   * accepts every hash of its input.
   */
  lemma ComparePasswordAfterSave(env: Env, s: Store, u: User, compare: (string, string) -> bool)
    requires HashesAreLong(env)
    requires forall q :: env.hash(q).Some? ==> compare(q, env.hash(q).value)
    requires Truthy(u.password)
    requires Save(env, s, u, true).Ok?
    ensures ComparePassword(Save(env, s, u, true).value.user, u.password.value, compare)
  {
  }

  /** An account created without a password never matches any candidate. */
  lemma NoPasswordNeverCompares(env: Env, s: Store, id: UserId, f: Fields, candidate: string,
                                compare: (string, string) -> bool)
    requires f.password.None?
    requires Create(env, s, id, f).Ok?
    ensures !ComparePassword(Create(env, s, id, f).value.user, candidate, compare)
  {
  }

  // -------------------------------------------------------------- JSON view

  datatype Json = JString(s: string) | JNull | JNumber(n: int) | JStrings(items: seq<string>)

  type Document = map<string, Json>

  /** The plain object of a document with virtuals: every stored key plus `id`. */
  function ToObject(u: User): Document {
    map[
      "_id" := JString(u.id),
      "id" := JString(u.id),
      "email" := JString(u.email),
      "googleId" := (if u.googleId.Some? then JString(u.googleId.value) else JNull),
      "displayName" := JString(u.displayName),
      "avatar" := JString(u.avatar),
      "tokens" := JStrings(u.tokens),
      "__v" := JNumber(u.version)]
    + (if u.password.Some? then map["password" := JString(u.password.value)] else map[])
  }

  const Hidden: set<string> := {"password", "tokens", "__v"}

  /** The `toJSON` transform: the three sensitive keys go, every other key passes through. */
  function Transform(d: Document): (r: Document)
    ensures forall k :: k in Hidden ==> k !in r
    ensures forall k :: k in d && k !in Hidden ==> k in r && r[k] == d[k]
    ensures r.Keys <= d.Keys
  {
    d - Hidden
  }

  function ToJson(u: User): Document {
    Transform(ToObject(u))
  }

  /** The serialised user has exactly the public keys, whatever the record holds. */
  lemma ViewKeys(u: User)
    ensures ToJson(u).Keys == {"_id", "id", "email", "googleId", "displayName", "avatar"}
  {
  }

  /** Password, tokens and version never influence the serialised user. */
  lemma ViewIgnoresSecrets(u: User, v: User)
    requires u.(password := v.password, tokens := v.tokens, version := v.version) == v
    ensures ToJson(u) == ToJson(v)
  {
    assert ToJson(u).Keys == ToJson(v).Keys;
  }
}
